=== FILE: README.md ===
# A verified model of the `aug28_2.py` tracking core

`aug28_2.py` reads radar reports `(range, azimuth, elevation, time)` and does three things with them:

1. It cuts the reports into time-window batches.
2. It runs each report through a constant-velocity Kalman filter, the `CVFilter` class.
3. It records, per batch, a track-to-report association.

This project models those three pieces in Dafny and proves properties about them. All arithmetic is over exact reals.

- `results.dfy`, module `Results`: the `Result` type. It models the one error the model keeps, reading `measurements[0]` of an empty list.
- `matrix.dfy`, module `Matrix`: vectors and matrices as sequences of reals. It holds the numpy operations the filter uses (`eye`, `dot`, `.T`, `+`, `-`, scaling) and lemmas about dot products.
- `batching.dfy`, module `Batching`: `form_measurement_groups`, as a recursive scan with a base time and an open group.
- `cvfilter.dfy`, module `CVFilter`: the filter object as an immutable record. `__init__`, `initialize_filter_state`, `predict_step` and `update_step` each become a function from the old record to the new one.
  - The two flags define a three-stage bootstrap: `Empty`, `OneSample`, `Ready`.
  - `Phi` and `Q` are modelled as the in-place entry writes the method performs. They are then proved equal to the closed forms.
  - `np.linalg.inv(S)` becomes an argument. Properties that need it to be the inverse say so in their preconditions.
- `tracker.dfy`, module `Tracker`: the per-group loop of `main`.
  - The library routines are fields of an `Env` value, constrained by `EnvOk`: `sph2cart`, the Euclidean norm, `linear_sum_assignment` and `inv`.
  - The loop is a fold over the groups and over the reports of each group. It yields the final filter and the `track_report_associations` table.

Some of the proved facts describe behaviour a reader of the code might not expect:

- `col_ind[0]` of an N x 1 cost column is always 0. So every update uses the group's first report, and every record names `Report-1`.
- The record for `Track-(g+1)` is rewritten by each post-bootstrap report of group `g`, so the last one wins.
- The bootstrap velocity is `(Z1 - Z2) / dt`, which points backwards. It is never written into the filtered state.
- `Q` is rebuilt from scratch by every prediction. It does not compound.

## Model

| member | source | states |
|---|---|---|
| Batching.FormMeasurementGroups | aug28_2.py:89-105 | Fails exactly on an empty list. Otherwise the groups concatenate back to the input, in order. With a non-negative window, every group is non-empty, lies within the window of its first member, and starts more than the window after the previous group's start. With a negative window, the first group emitted is empty. |
| Batching.ScanFlattens | aug28_2.py:94-103 | The scan neither drops nor duplicates a measurement. What it emits concatenates to the open group followed by the unread measurements. |
| Batching.ScanWellBatched | aug28_2.py:92-103 | With a non-negative window, the scan emits only non-empty groups inside the window, each starting more than the window after its predecessor. This holds whatever the order of the timestamps. |
| CVFilter.New | aug28_2.py:16-33 | A fresh filter is well formed and in the first bootstrap stage. Plant noise is 20 and the gate is 9.21. Both states are zero and both covariances are the identity. |
| CVFilter.Initialize | aug28_2.py:35-55 | The flags only advance (Empty, then OneSample, then Ready) and never go back. The second flag never comes without the first. The first call sets both times to `time`; later calls move the old `Meas_Time` to `prev_Time`. Only the measurement slots, the two times, the flags and the velocity can change: Sf, Pf, Sp, Pp, Q, Phi, H, R, the plant noise and the gate are untouched. Each stage writes only its own measurement slot (Z1, then Z2, then Z) and leaves the other two as they were. The second call's velocity is non-finite exactly when the time step is zero, and otherwise satisfies `v * dt == Z1 - Z2`. |
| CVFilter.BootVelocityReversed | aug28_2.py:45-48 | For a target moving from `p` at `t1` with velocity `u`, the two bootstrap calls record the velocity `-u`. |
| CVFilter.TransitionFor | aug28_2.py:58-63 | After the three in-place writes, Phi is the identity plus `dt` at each position/velocity coupling, because Phi was the identity everywhere else. |
| CVFilter.NoiseFor | aug28_2.py:59-77 | After the twelve in-place writes and the scaling, Q is the plant noise times the constant-velocity pattern. |
| CVFilter.Predict | aug28_2.py:57-80 | Only Phi, Q, Sp, Pp and `Meas_Time` change, and `Meas_Time` becomes the current time. Phi is the transition for `dt = currentTime - prev_Time`. Sp's positions are Sf's positions plus `dt` times the velocities; its velocities are Sf's. A symmetric Pf gives a symmetric Pp. |
| CVFilter.PredictRebuildsNoise | aug28_2.py:65-77 | After every prediction, each entry of Q is the plant noise times the constant-velocity pattern entry for `dt`. |
| CVFilter.NoiseDoesNotCompound | aug28_2.py:65-77 | Two filters with the same `prev_Time` and plant noise get the same Q from a prediction, whatever Q each held before. |
| CVFilter.PredictCovariance | aug28_2.py:79 | Each entry of Pp is Pf's entry plus `dt` times its velocity neighbours (and `dt^2` times the velocity-velocity entry for position pairs), plus Q. |
| CVFilter.PredictedState | aug28_2.py:78 | Phi times a state adds `dt` times each velocity to its position and keeps the velocities. |
| CVFilter.PredictKeepsSymmetry | aug28_2.py:79 | A covariance propagated entry by entry from a symmetric Pf, plus the noise pattern, is symmetric. |
| CVFilter.CovSymmetry | aug28_2.py:79 | Phi * Pf * Phi^T + Q is symmetric whenever Pf is. |
| CVFilter.Update | aug28_2.py:82-87 | Only Sf and Pf change, and the record stays well formed. A measurement equal to the predicted position makes Sf equal to Sp. |
| CVFilter.MeasuredPosition | aug28_2.py:83 | H * Sp is the first three components of Sp. |
| CVFilter.InnovationEntries | aug28_2.py:83 | The innovation is the measurement minus the predicted position, component by component. |
| CVFilter.ZeroInnovation | aug28_2.py:83-86 | A zero innovation leaves the updated state equal to the predicted state, whatever the gain. |
| CVFilter.CovTimesHtEntry | aug28_2.py:84-85 | Pp * H^T is the first three columns of Pp. |
| CVFilter.InnovationCovEntries | aug28_2.py:84 | S is the top-left 3x3 block of Pp plus the identity. |
| CVFilter.GainPositionRow | aug28_2.py:85 | When `sInv` is the inverse of S, the position block of the gain is the identity minus `sInv`. |
| CVFilter.UpdateResidual | aug28_2.py:83-86 | When `sInv` is the inverse of S, the updated position misses the measurement by exactly `inv(S)` times the innovation. |
| CVFilter.UpdateCovariance | aug28_2.py:85-87 | When `sInv` is the inverse of S, the position rows of the updated covariance are `inv(S)` times the position rows of Pp. |
| Tracker.CostColumn | aug28_2.py:223 | The cost matrix is N x 1, one row per report. |
| Tracker.BestMatchIsFirst | aug28_2.py:172-175 | For any solver result that is a valid assignment of an N x 1 cost matrix, `col_ind` has one entry and it is 0. |
| Tracker.BestMatch | aug28_2.py:221-229 | The index the loop reads as the best match is always 0, the group's first report. |
| Tracker.PredictTo | aug28_2.py:217-218 | Re-initialising a bootstrapped filter and predicting to the report's own time keeps the filter Ready. The prediction starts from the previous report's time, and the predicted position is the filtered position extrapolated over that gap. |
| Tracker.PredictFromLastMeasurement | aug28_2.py:217-218 | After the re-initialisation, the prediction extrapolates the filtered state from the previous report's time. |
| Tracker.Correct | aug28_2.py:230-232 | The update with `inv(S)` keeps the stage, the predicted state and both times. A report equal to the predicted position leaves `Sf` at `Sp`. When `inv(S)` is the exact inverse of `S`, the residual `Z - Sf[:3]` is `inv(S)` times the innovation. |
| Tracker.TrackStep | aug28_2.py:216-242 | A post-bootstrap report leaves the filter Ready, with `Meas_Time` set to the report's time and `prev_Time` set to the previous report's time. The predicted position is the last filtered position moved by the filtered velocity over the gap to that time. The update uses the group's first report, so when that report equals the prediction `Sf` becomes `Sp`. Its record is the updated track position, `Report-1` and the group's first report. |
| Tracker.CorrectFrame | aug28_2.py:82-87 | The update changes only `Sf` and `Pf`; every other attribute of the filter stays as it was. |
| Tracker.CorrectCovariance | aug28_2.py:85-87 | When `inv(S)` is the exact inverse of `S`, the first three rows of the new `Pf` are `inv(S)` times the first three rows of `Pp`. |
| Tracker.Step | aug28_2.py:208-242 | One report advances the bootstrap stage. Before Ready it changes neither the table nor Sf and Pf. Once Ready the new filter is the old one re-initialised and predicted to the report's time, then updated with the group's first report. It writes `Track-(g+1)` with that post-update position, `Report-1` and the group's first report, and nothing else. |
| Tracker.FeedGroup | aug28_2.py:208-242 | Feeding `n` reports advances the bootstrap count by `n`, capped at Ready, and keeps the filter well formed. |
| Tracker.FeedGroupBootstrap | aug28_2.py:212-215 | While the bootstrap absorbs the reports, nothing is recorded and Sf and Pf do not change. |
| Tracker.FeedGroupRecord | aug28_2.py:230-242 | Once the reports reach past the bootstrap, the table differs from before only at `Track-(g+1)`. That entry holds the last report's updated position: the last report wins. |
| Tracker.GroupEffect | aug28_2.py:208-242 | A whole group either writes exactly its own record or, when consumed by the bootstrap, changes neither the table nor Sf and Pf. |
| Tracker.GroupKeepsOthers | aug28_2.py:233-238 | A group leaves every other track's entry as it was. |
| Tracker.GroupFirstReport | aug28_2.py:233-237 | A group only ever records `Report-1`. |
| Tracker.FeedGroups | aug28_2.py:202-252 | Running the first `n` groups advances the bootstrap count by the number of reports they hold, capped at Ready. |
| Tracker.TrackAfterGroup | aug28_2.py:202-242 | Right after group `k`, `Track-(k+1)` holds a record exactly when group `k` is non-empty and the reports up to its end number at least three (counting the bootstrap already done). The record holds that moment's track position, `Report-1` and the group's first report. Otherwise the entry is as before the loop. |
| Tracker.FeedGroupsTrack | aug28_2.py:202-242 | Later groups do not touch that entry, so it is final. |
| Tracker.FeedGroupsOthers | aug28_2.py:202-238 | Entries for ids outside `Track-1` .. `Track-n` are never written. |
| Tracker.FeedGroupsBootstrap | aug28_2.py:208-215 | While the bootstrap absorbs every report of the first `n` groups, nothing is recorded and Sf and Pf do not change. |
| Tracker.FeedGroupsFirstReport | aug28_2.py:233-237 | The loop only ever records `Report-1`. |
| Tracker.Start | aug28_2.py:196-199 | The loop starts from a fresh filter, with no bootstrap reports absorbed, and an empty table. |
| Tracker.Track | aug28_2.py:193-242 | Fails exactly on an empty input. Otherwise the table is empty exactly when there are fewer than three reports, and every record names `Report-1`. |
| Tracker.TrackOutcome | aug28_2.py:193-242 | The emptiness and `Report-1` facts for the batches of a non-empty input. |
| Tracker.TrackQuiet | aug28_2.py:208-215 | With at most two reports nothing is recorded. Sf stays the zero vector and Pf the identity: the bootstrap never seeds the filtered state. |
| Tracker.TrackRecordsLast | aug28_2.py:202-242 | With three or more reports, the last batch's track is recorded. |
| Tracker.TrackRecords | aug28_2.py:202-242 | For every batch `k`, the table holds the entry `TrackEntry` describes: a record exactly when batch `k` is non-empty and the reports up to its end number at least three; no entry otherwise. |
| Tracker.TrackKeys | aug28_2.py:202-238 | The table only has the keys `Track-1` .. `Track-n` for the `n` batches. |

## Left out

- Reading the CSV file and the pandas reference data (lines 107-120 and 184-190): file I/O.
- Plotting, `mplcursors`, every `print`, and the global lists `r`, `az`, `el`, `time_list` filled for the plot (lines 9-13, 244-249 and after 256): output only.
- `sph2cart`, `cart2sph` and `cart2sph2`: trigonometry over floats. `sph2cart` is a function field of `Env` whose only contract is that it returns three coordinates. `cart2sph` also converts every measurement as it is read (line 118), so its quadrant correction, written for `atan` but applied after `atan2`, turns the azimuth the loop sees by 180 degrees for every point with x <= 0, since the test at line 133 is `x > 0.0`. The model takes the measurement tuples after that conversion as its input and does not model the conversion.
- `np.linalg.norm`, `linear_sum_assignment` and `np.linalg.inv`: abstract functions in `Env`. The solver's contract is that it returns a valid assignment. The inverse's contract is only that it is 3x3.
- The `LinAlgError` numpy raises for a singular S: the model always proceeds with whatever `inv` returns.
- Gating: `gate_threshold` is stored by `New` but never read, as in the code, and the `chi2` import is unused.
- Floating-point rounding, overflow and NaN/inf propagation: the model is over exact reals. The one division by a variable, the bootstrap velocity, gives `NonFinite` for a zero time step instead of needing a non-zero step from the caller.
- `track_updated` and the `continue` after each group (lines 206, 252 and 254-256): they have no effect on the result.
- The string formatting of `Track-n` and `Report-n`: these are the datatypes `TrackId(n)` and `ReportId(n)`.
- CVFilter.Update: the symmetry of Pf after an update and the velocity rows of the updated state and covariance are not stated. Only the position rows, under the exact-inverse assumption, are stated.
- Tracker.Track: the track positions are stated per batch by `TrackRecords`, in terms of the filter after that batch, not as closed-form numbers.
- Kept as the code has them: an empty input raises in `form_measurement_groups`; there is no guard on the sign of the prediction step; the gate is never applied; a singular S is not skipped; the best match is `col_ind[0]`.

=== FILE: batching.dfy ===
/**
 * The measurement batcher: a left-to-right scan that cuts the measurement
 * list into groups whose timestamps stay within `maxTimeDiff` of the group's
 * first member.
 */
module Batching {
  import opened Results

  /** One sensor report: range, azimuth and elevation, and the time it was taken. */
  datatype Measurement = Measurement(range: real, azimuth: real, elevation: real, time: real)

  type Group = seq<Measurement>

  /** The window `main` passes to the batcher. */
  const DefaultMaxTimeDiff: real := 50.0

  /** All groups joined end to end. */
  function Flatten(gs: seq<Group>): seq<Measurement> {
    if |gs| == 0 then [] else gs[0] + Flatten(gs[1..])
  }

  /**
   * What the loop still emits when `rest` is left to read, the open group is
   * `current` and its base time is `base`: each measurement within the window
   * joins the open group, any other one closes it and opens a new group with
   * its own time as the base; at the end a non-empty open group is flushed.
   */
  function Scan(rest: seq<Measurement>, base: real, current: Group, maxTimeDiff: real): seq<Group>
    decreases |rest|
  {
    if |rest| == 0 then
      if |current| > 0 then [current] else []
    else if rest[0].time - base <= maxTimeDiff then
      Scan(rest[1..], base, current + [rest[0]], maxTimeDiff)
    else
      [current] + Scan(rest[1..], rest[0].time, [rest[0]], maxTimeDiff)
  }

  /**
   * The groups are non-empty, every member lies within `maxTimeDiff` of its
   * group's first member, and each group starts more than `maxTimeDiff`
   * after the previous group started.
   */
  ghost predicate WellBatched(gs: seq<Group>, maxTimeDiff: real) {
    && (forall k :: 0 <= k < |gs| ==> |gs[k]| > 0)
    && (forall k, j :: 0 <= k < |gs| && 0 <= j < |gs[k]| ==> gs[k][j].time - gs[k][0].time <= maxTimeDiff)
    && (forall k :: 0 < k < |gs| ==> gs[k][0].time - gs[k - 1][0].time > maxTimeDiff)
  }

  /**
   * `form_measurement_groups`. The base time is read from element 0 before
   * the loop starts, so an empty list is an error.
   */
  function FormMeasurementGroups(ms: seq<Measurement>, maxTimeDiff: real): (r: Result<seq<Group>>)
    ensures r.Err? <==> |ms| == 0
    ensures r.Ok? ==> Flatten(r.value) == ms
    ensures r.Ok? && maxTimeDiff >= 0.0 ==> WellBatched(r.value, maxTimeDiff)
    ensures r.Ok? && maxTimeDiff < 0.0 ==> |r.value| > 0 && r.value[0] == []
  {
    if |ms| == 0 then Err(EmptyMeasurements)
    else
      var gs := Scan(ms, ms[0].time, [], maxTimeDiff);
      ScanFlattens(ms, ms[0].time, [], maxTimeDiff);
      if maxTimeDiff >= 0.0 then
        ScanWellBatched(ms, ms[0].time, [], maxTimeDiff);
        Ok(gs)
      else
        Ok(gs)
  }

  lemma {:induction false} FlattenCons(g: Group, gs: seq<Group>)
    ensures Flatten([g] + gs) == g + Flatten(gs)
  {
    assert ([g] + gs)[1..] == gs;
  }

  lemma {:induction false} FlattenSnoc(gs: seq<Group>, g: Group)
    ensures Flatten(gs + [g]) == Flatten(gs) + g
  {
    if |gs| == 0 {
      assert gs + [g] == [g];
      assert Flatten([g]) == g + Flatten([]);
    } else {
      assert (gs + [g])[1..] == gs[1..] + [g];
      FlattenSnoc(gs[1..], g);
    }
  }

  /** The first `n + 1` groups hold the first `n` groups' measurements followed by group `n`'s. */
  lemma FlattenPrefix(gs: seq<Group>, n: nat)
    requires n < |gs|
    ensures Flatten(gs[..n + 1]) == Flatten(gs[..n]) + gs[n]
  {
    assert gs[..n + 1] == gs[..n] + [gs[n]];
    FlattenSnoc(gs[..n], gs[n]);
  }

  /** No measurement is dropped or duplicated: the groups concatenate back to the input. */
  lemma {:induction false} ScanFlattens(rest: seq<Measurement>, base: real, current: Group, maxTimeDiff: real)
    ensures Flatten(Scan(rest, base, current, maxTimeDiff)) == current + rest
    decreases |rest|
  {
    if |rest| == 0 {
      if |current| > 0 {
        FlattenCons(current, []);
      }
    } else if rest[0].time - base <= maxTimeDiff {
      ScanFlattens(rest[1..], base, current + [rest[0]], maxTimeDiff);
      assert current + [rest[0]] + rest[1..] == current + rest;
    } else {
      ScanFlattens(rest[1..], rest[0].time, [rest[0]], maxTimeDiff);
      FlattenCons(current, Scan(rest[1..], rest[0].time, [rest[0]], maxTimeDiff));
      assert [rest[0]] + rest[1..] == rest;
    }
  }

  /** The loop state between iterations when the window is non-negative. */
  ghost predicate OpenGroup(rest: seq<Measurement>, base: real, current: Group, maxTimeDiff: real) {
    && (|current| == 0 ==> |rest| > 0 && rest[0].time == base)
    && (|current| > 0 ==> current[0].time == base)
    && (forall j :: 0 <= j < |current| ==> current[j].time - base <= maxTimeDiff)
  }

  lemma {:induction false} ScanWellBatched(rest: seq<Measurement>, base: real, current: Group, maxTimeDiff: real)
    requires maxTimeDiff >= 0.0
    requires OpenGroup(rest, base, current, maxTimeDiff)
    ensures var gs := Scan(rest, base, current, maxTimeDiff);
      WellBatched(gs, maxTimeDiff) && |gs| > 0 && gs[0][0].time == base
    decreases |rest|
  {
    if |rest| == 0 {
    } else if rest[0].time - base <= maxTimeDiff {
      var next := current + [rest[0]];
      assert OpenGroup(rest[1..], base, next, maxTimeDiff) by {
        assert forall j :: 0 <= j < |current| ==> next[j] == current[j];
      }
      ScanWellBatched(rest[1..], base, next, maxTimeDiff);
    } else {
      assert |current| > 0;
      var tail := Scan(rest[1..], rest[0].time, [rest[0]], maxTimeDiff);
      ScanWellBatched(rest[1..], rest[0].time, [rest[0]], maxTimeDiff);
      var gs := [current] + tail;
      assert gs[0] == current;
      assert forall k :: 0 < k < |gs| ==> gs[k] == tail[k - 1];
    }
  }
}

=== FILE: cvfilter.dfy ===
/**
 * The constant-velocity Kalman filter `CVFilter`, over exact reals. The
 * object's attributes become the fields of an immutable record and each
 * method becomes a function from the old record to the new one.
 */
module CVFilter {
  import opened Matrix

  /**
   * The attributes `vx`, `vy`, `vz` that the second bootstrap call creates.
   * They do not exist before that call; a zero time step makes numpy divide
   * by zero and yield non-finite values.
   */
  datatype BootVelocity = NotComputed | Velocity(v: Vec) | NonFinite

  /** The attributes of a `CVFilter` object. Vectors are numpy column vectors, flattened. */
  datatype Filter = Filter(
    sf: Vec,             // filtered state (x, y, z, vx, vy, vz)
    pf: Mat,             // filtered covariance
    sp: Vec,             // predicted state
    pp: Mat,             // predicted covariance
    plantNoise: real,
    h: Mat,              // measurement matrix
    r: Mat,              // measurement noise covariance
    measTime: real,
    prevTime: real,
    q: Mat,              // process noise, rewritten in place by every prediction
    phi: Mat,            // state transition, rewritten in place by every prediction
    z: Vec,              // latest measurement after the bootstrap
    z1: Vec,             // first bootstrap measurement
    z2: Vec,             // second bootstrap measurement
    firstRepFlag: bool,
    secondRepFlag: bool,
    vel: BootVelocity,
    gateThreshold: real)

  /** The bootstrap stage the two flags encode. */
  datatype Stage = Empty | OneSample | Ready

  function StageOf(f: Filter): Stage {
    if !f.firstRepFlag then Empty
    else if !f.secondRepFlag then OneSample
    else Ready
  }

  function NextStage(s: Stage): Stage {
    match s
    case Empty => OneSample
    case OneSample => Ready
    case Ready => Ready
  }

  /** Position `i` is coupled to velocity `j` by the transition matrix. */
  predicate IsCoupling(i: int, j: int) {
    0 <= i < 3 && j == i + 3
  }

  /** The entries a prediction writes into Q. */
  predicate InNoisePattern(i: int, j: int) {
    i == j || j == i + 3 || i == j + 3
  }

  /**
   * The discretised constant-velocity noise pattern: dt^3/3 on the position
   * diagonal, dt on the velocity diagonal, dt^2/2 between a position and its
   * velocity, zero elsewhere.
   */
  function CVNoise(i: int, j: int, dt: real): real {
    if i == j then (if i < 3 then dt * dt * dt / 3.0 else dt)
    else if j == i + 3 || i == j + 3 then dt * dt / 2.0
    else 0.0
  }

  /**
   * The filter's record is well formed: fixed shapes, the constant H and R,
   * the transition matrix equal to the identity outside the coupling entries
   * and Q zero outside the noise pattern, and the second flag never set
   * without the first.
   */
  ghost predicate Valid(f: Filter) {
    Shaped(f) && PhiOutsideCouplings(f.phi) && NoiseOutsidePattern(f.q)
  }

  /** The vectors and matrices have the shapes numpy gives them, H and R are constant, the flags are ordered. */
  ghost predicate Shaped(f: Filter) {
    && |f.sf| == 6 && IsMat(f.pf, 6, 6)
    && |f.sp| == 6 && IsMat(f.pp, 6, 6)
    && f.h == Eye(3, 6) && f.r == Identity(3)
    && IsMat(f.q, 6, 6) && IsMat(f.phi, 6, 6)
    && |f.z| == 3 && |f.z1| == 3 && |f.z2| == 3
    && (f.secondRepFlag ==> f.firstRepFlag)
    && (f.vel.Velocity? ==> |f.vel.v| == 3)
  }

  /** Phi equals the identity away from the three coupling entries. */
  ghost predicate PhiOutsideCouplings(phi: Mat)
    requires IsMat(phi, 6, 6)
  {
    forall i, j :: 0 <= i < 6 && 0 <= j < 6 && !IsCoupling(i, j) ==> phi[i][j] == if i == j then 1.0 else 0.0
  }

  /** Q is zero away from the noise pattern. */
  ghost predicate NoiseOutsidePattern(q: Mat)
    requires IsMat(q, 6, 6)
  {
    forall i, j :: 0 <= i < 6 && 0 <= j < 6 && !InNoisePattern(i, j) ==> q[i][j] == 0.0
  }


  /** `CVFilter.__init__`. */
  function New(): (f: Filter)
    ensures Valid(f) && StageOf(f) == Empty
    ensures f.plantNoise == 20.0 && f.gateThreshold == 9.21
    ensures forall i :: 0 <= i < 6 ==> f.sf[i] == 0.0 && f.sp[i] == 0.0
    ensures forall i, j :: 0 <= i < 6 && 0 <= j < 6 ==>
      f.pf[i][j] == f.pp[i][j] == (if i == j then 1.0 else 0.0)
  {
    Filter(
      sf := Zeros(6), pf := Identity(6), sp := Zeros(6), pp := Identity(6),
      plantNoise := 20.0, h := Eye(3, 6), r := Identity(3),
      measTime := 0.0, prevTime := 0.0, q := Identity(6), phi := Identity(6),
      z := Zeros(3), z1 := Zeros(3), z2 := Zeros(3),
      firstRepFlag := false, secondRepFlag := false,
      vel := NotComputed, gateThreshold := 9.21)
  }

  /**
   * `initialize_filter_state`. The velocity arguments are accepted and
   * ignored, as in the source.
   */
  function Initialize(f: Filter, x: real, y: real, z: real, vx: real, vy: real, vz: real, time: real): (g: Filter)
    requires Valid(f)
    ensures Valid(g)
    ensures StageOf(g) == NextStage(StageOf(f))
    ensures (f.firstRepFlag ==> g.firstRepFlag) && (f.secondRepFlag ==> g.secondRepFlag)
    ensures g.measTime == time
    ensures g.prevTime == if StageOf(f) == Empty then time else f.measTime
    ensures g.sf == f.sf && g.pf == f.pf && g.sp == f.sp && g.pp == f.pp
    ensures g.q == f.q && g.phi == f.phi
    ensures StageOf(f) == Empty ==> g.z1 == [x, y, z] && g.vel == f.vel
    ensures StageOf(f) == OneSample ==>
      && g.z1 == f.z1 && g.z2 == [x, y, z]
      && (time == f.measTime <==> g.vel == NonFinite)
      && (time != f.measTime ==>
            g.vel.Velocity? && forall k :: 0 <= k < 3 ==> g.vel.v[k] * (time - f.measTime) == f.z1[k] - g.z2[k])
    ensures StageOf(f) == Ready ==> g.z == [x, y, z] && g.vel == f.vel
    ensures g.(z := f.z, z1 := f.z1, z2 := f.z2, measTime := f.measTime, prevTime := f.prevTime,
               firstRepFlag := f.firstRepFlag, secondRepFlag := f.secondRepFlag, vel := f.vel) == f
    ensures StageOf(f) == Empty ==> g.z == f.z && g.z2 == f.z2
    ensures StageOf(f) == OneSample ==> g.z == f.z
    ensures StageOf(f) == Ready ==> g.z1 == f.z1 && g.z2 == f.z2
  {
    if !f.firstRepFlag then
      var t := time;
      f.(z1 := [x, y, z], measTime := t, prevTime := t, firstRepFlag := true)
    else if f.firstRepFlag && !f.secondRepFlag then
      var z2 := [x, y, z];
      var prev := f.measTime;
      var dt := time - prev;
      var vel := if dt == 0.0 then NonFinite
                 else Velocity([(f.z1[0] - z2[0]) / dt, (f.z1[1] - z2[1]) / dt, (f.z1[2] - z2[2]) / dt]);
      f.(z2 := z2, prevTime := prev, measTime := time, vel := vel, secondRepFlag := true)
    else
      f.(z := [x, y, z], prevTime := f.measTime, measTime := time)
  }

  /**
   * The in-place writes of `Phi` in `predict_step`: the three coupling
   * entries receive `dt`, every other entry keeps its old value.
   */
  function WritePhi(phi: Mat, dt: real): (m: Mat)
    requires IsMat(phi, 6, 6)
    ensures IsMat(m, 6, 6)
  {
    seq(6, i requires 0 <= i < 6 => seq(6, j requires 0 <= j < 6 => if IsCoupling(i, j) then dt else phi[i][j]))
  }

  /** The value `predict_step` writes into `Q[i, j]` for an entry of the noise pattern. */
  function NoiseWrite(i: int, j: int, dt: real): real {
    var t2 := dt * dt / 2.0;
    var t3 := dt * dt * dt / 3.0;
    if i == j then (if i < 3 then t3 else dt) else t2
  }

  /**
   * The twelve in-place writes of `Q` in `predict_step`, before the scaling
   * by the plant noise: every pattern entry is overwritten, every other entry
   * keeps its old value.
   */
  function WriteQ(q: Mat, dt: real): (m: Mat)
    requires IsMat(q, 6, 6)
    ensures IsMat(m, 6, 6)
  {
    seq(6, i requires 0 <= i < 6 => seq(6, j requires 0 <= j < 6 => if InNoisePattern(i, j) then NoiseWrite(i, j, dt) else q[i][j]))
  }

  /** Entry `(i, j)` of Phi * P * Phi^T for the constant-velocity Phi with step `dt`, written out by hand. */
  function PropagatedCov(p: Mat, dt: real, i: nat, j: nat): real
    requires IsMat(p, 6, 6) && i < 6 && j < 6
  {
    p[i][j]
    + (if i < 3 then dt * p[i + 3][j] else 0.0)
    + (if j < 3 then dt * p[i][j + 3] else 0.0)
    + (if i < 3 && j < 3 then dt * dt * p[i + 3][j + 3] else 0.0)
  }

  /** Phi after the writes of `predict_step`. */
  function TransitionFor(f: Filter, dt: real): (phi: Mat)
    requires Valid(f)
    ensures IsTransition(phi, dt)
  {
    PhiEntries(f.phi, dt);
    WritePhi(f.phi, dt)
  }

  /** Q after the writes of `predict_step` and the scaling by the plant noise. */
  function NoiseFor(f: Filter, dt: real): (q: Mat)
    requires Valid(f)
    ensures IsMat(q, 6, 6)
    ensures forall i, j :: 0 <= i < 6 && 0 <= j < 6 ==> q[i][j] == f.plantNoise * CVNoise(i, j, dt)
  {
    QEntries(f, dt);
    Scale(WriteQ(f.q, dt), f.plantNoise, 6, 6)
  }

  /** Phi * P * Phi^T + Q. */
  function CovFor(phi: Mat, p: Mat, q: Mat): (m: Mat)
    requires IsMat(phi, 6, 6) && IsMat(p, 6, 6) && IsMat(q, 6, 6)
    ensures IsMat(m, 6, 6)
  {
    MatAdd(MatMul(MatMul(phi, p, 6, 6, 6), Transpose(phi, 6, 6), 6, 6, 6), q, 6, 6)
  }

  /** The time step of a prediction: from the previous measurement time to `currentTime`. */
  function StepOf(f: Filter, currentTime: real): real {
    currentTime - f.prevTime
  }

  /**
   * `predict_step`. The time step is measured from `prevTime`; `Phi` and `Q`
   * are rewritten in place and the new Q is scaled by the plant noise.
   */
  function Predict(f: Filter, currentTime: real): (g: Filter)
    requires Valid(f)
    ensures Valid(g)
    ensures g.(phi := f.phi, q := f.q, sp := f.sp, pp := f.pp, measTime := f.measTime) == f && g.measTime == currentTime
    ensures IsTransition(g.phi, StepOf(f, currentTime))
    ensures forall i :: 0 <= i < 3 ==> g.sp[i] == f.sf[i] + StepOf(f, currentTime) * f.sf[i + 3]
    ensures forall i :: 3 <= i < 6 ==> g.sp[i] == f.sf[i]
    ensures IsSymmetric(f.pf, 6) ==> IsSymmetric(g.pp, 6)
  {
    var dt := StepOf(f, currentTime);
    var phi := TransitionFor(f, dt);
    var q := NoiseFor(f, dt);
    var sp := MatVec(phi, f.sf, 6);
    var pp := CovFor(phi, f.pf, q);
    PredictedState(phi, dt, f.sf);
    PredictKeepsShape(f, phi, q, sp, pp, currentTime, dt);
    CovSymmetry(f, dt);
    f.(phi := phi, q := q, sp := sp, pp := pp, measTime := currentTime)
  }

  /**
   * After every prediction Q is the plant noise times the constant-velocity
   * pattern for the step since `prevTime`, whatever Q held before: the
   * writes cover every non-zero entry and Q was zero everywhere else.
   */
  lemma PredictRebuildsNoise(f: Filter, currentTime: real)
    requires Valid(f)
    ensures var g := Predict(f, currentTime);
      forall i, j :: 0 <= i < 6 && 0 <= j < 6 ==> g.q[i][j] == f.plantNoise * CVNoise(i, j, StepOf(f, currentTime))
  {
    var q := NoiseFor(f, StepOf(f, currentTime));
    assert Predict(f, currentTime).q == q;
  }

  /**
   * The predicted covariance is Phi * Pf * Phi^T + Q, entry by entry: each
   * position row and column picks up `dt` times its velocity counterpart.
   */
  lemma PredictCovariance(f: Filter, currentTime: real)
    requires Valid(f)
    ensures var g := Predict(f, currentTime);
      forall i, j :: 0 <= i < 6 && 0 <= j < 6 ==>
        g.pp[i][j] == PropagatedCov(f.pf, StepOf(f, currentTime), i, j) + g.q[i][j]
  {
    var dt := StepOf(f, currentTime);
    var phi := TransitionFor(f, dt);
    var q := NoiseFor(f, dt);
    PredictedCov(phi, dt, f.pf, q);
  }

  /** Phi is the identity plus `dt` at each position/velocity coupling. */
  ghost predicate IsTransition(phi: Mat, dt: real) {
    IsMat(phi, 6, 6) &&
    forall i, j :: 0 <= i < 6 && 0 <= j < 6 ==>
      phi[i][j] == if i == j then 1.0 else if IsCoupling(i, j) then dt else 0.0
  }

  lemma PhiEntries(phi: Mat, dt: real)
    requires IsMat(phi, 6, 6)
    requires forall i, j :: 0 <= i < 6 && 0 <= j < 6 && !IsCoupling(i, j) ==>
      phi[i][j] == if i == j then 1.0 else 0.0
    ensures IsTransition(WritePhi(phi, dt), dt)
  {
  }

  lemma QEntries(f: Filter, dt: real)
    requires Valid(f)
    ensures forall i, j :: 0 <= i < 6 && 0 <= j < 6 ==>
      Scale(WriteQ(f.q, dt), f.plantNoise, 6, 6)[i][j] == f.plantNoise * CVNoise(i, j, dt)
  {
    var w := WriteQ(f.q, dt);
    forall i, j | 0 <= i < 6 && 0 <= j < 6
      ensures w[i][j] == CVNoise(i, j, dt)
    {
      if !InNoisePattern(i, j) {
        assert f.q[i][j] == 0.0;
      }
    }
  }

  lemma PredictKeepsShape(f: Filter, phi: Mat, q: Mat, sp: Vec, pp: Mat, t: real, dt: real)
    requires Valid(f)
    requires IsTransition(phi, dt)
    requires IsMat(q, 6, 6) && IsMat(pp, 6, 6) && |sp| == 6
    requires forall i, j :: 0 <= i < 6 && 0 <= j < 6 ==> q[i][j] == f.plantNoise * CVNoise(i, j, dt)
    ensures Valid(f.(phi := phi, q := q, sp := sp, pp := pp, measTime := t))
  {
  }

  /** Phi * Pf * Phi^T + Q is symmetric when Pf is. */
  lemma CovSymmetry(f: Filter, dt: real)
    requires Valid(f)
    ensures IsSymmetric(f.pf, 6) ==> IsSymmetric(CovFor(TransitionFor(f, dt), f.pf, NoiseFor(f, dt)), 6)
  {
    if IsSymmetric(f.pf, 6) {
      var phi := TransitionFor(f, dt);
      var q := NoiseFor(f, dt);
      var pp := CovFor(phi, f.pf, q);
      PredictedCov(phi, dt, f.pf, q);
      PredictKeepsSymmetry(f, q, pp, dt);
    }
  }

  lemma PredictKeepsSymmetry(f: Filter, q: Mat, pp: Mat, dt: real)
    requires Valid(f) && IsMat(pp, 6, 6) && IsMat(q, 6, 6)
    requires forall i, j :: 0 <= i < 6 && 0 <= j < 6 ==> q[i][j] == f.plantNoise * CVNoise(i, j, dt)
    requires forall i, j :: 0 <= i < 6 && 0 <= j < 6 ==> pp[i][j] == PropagatedCov(f.pf, dt, i, j) + q[i][j]
    ensures IsSymmetric(f.pf, 6) ==> IsSymmetric(pp, 6)
  {
    if IsSymmetric(f.pf, 6) {
      forall i, j | 0 <= i < 6 && 0 <= j < 6
        ensures pp[i][j] == pp[j][i]
      {
        assert CVNoise(i, j, dt) == CVNoise(j, i, dt);
        assert PropagatedCov(f.pf, dt, i, j) == PropagatedCov(f.pf, dt, j, i);
      }
    }
  }

  /** One row of Phi times a vector: the row's own entry plus `dt` times its velocity entry. */
  lemma TransitionRow(phi: Mat, dt: real, i: nat, v: Vec)
    requires IsTransition(phi, dt)
    requires i < 6 && |v| == 6
    ensures Dot(phi[i], v) == v[i] + (if i < 3 then dt * v[i + 3] else 0.0)
  {
    if i < 3 {
      DotPair(phi[i], v, i, i + 3);
    } else {
      DotSelect(phi[i], v, i);
    }
  }

  lemma PredictedState(phi: Mat, dt: real, s: Vec)
    requires IsTransition(phi, dt) && |s| == 6
    ensures var sp := MatVec(phi, s, 6);
      && (forall i :: 0 <= i < 3 ==> sp[i] == s[i] + dt * s[i + 3])
      && (forall i :: 3 <= i < 6 ==> sp[i] == s[i])
  {
    var sp := MatVec(phi, s, 6);
    forall i | 0 <= i < 3
      ensures sp[i] == s[i] + dt * s[i + 3]
    {
      TransitionRow(phi, dt, i, s);
    }
    forall i | 3 <= i < 6
      ensures sp[i] == s[i]
    {
      TransitionRow(phi, dt, i, s);
    }
  }

  /** Entry `(i, k)` of Phi * P. */
  lemma TransitionTimesCov(phi: Mat, dt: real, p: Mat, i: nat, k: nat)
    requires IsTransition(phi, dt) && IsMat(p, 6, 6) && i < 6 && k < 6
    ensures MatMul(phi, p, 6, 6, 6)[i][k] == p[i][k] + (if i < 3 then dt * p[i + 3][k] else 0.0)
  {
    TransitionRow(phi, dt, i, Col(p, k));
  }

  /** Entry `(i, j)` of (Phi * P) * Phi^T. */
  lemma PropagatedEntry(phi: Mat, dt: real, p: Mat, i: nat, j: nat)
    requires IsTransition(phi, dt) && IsMat(p, 6, 6) && i < 6 && j < 6
    ensures MatMul(MatMul(phi, p, 6, 6, 6), Transpose(phi, 6, 6), 6, 6, 6)[i][j] == PropagatedCov(p, dt, i, j)
  {
    var a := MatMul(phi, p, 6, 6, 6);
    ColOfTranspose(phi, 6, 6, j);
    DotComm(a[i], phi[j]);
    TransitionRow(phi, dt, j, a[i]);
    TransitionTimesCov(phi, dt, p, i, j);
    if j < 3 {
      TransitionTimesCov(phi, dt, p, i, j + 3);
    }
  }

  lemma PredictedCov(phi: Mat, dt: real, p: Mat, q: Mat)
    requires IsTransition(phi, dt) && IsMat(p, 6, 6) && IsMat(q, 6, 6)
    ensures forall i, j :: 0 <= i < 6 && 0 <= j < 6 ==> CovFor(phi, p, q)[i][j] == PropagatedCov(p, dt, i, j) + q[i][j]
  {
    forall i, j | 0 <= i < 6 && 0 <= j < 6
      ensures CovFor(phi, p, q)[i][j] == PropagatedCov(p, dt, i, j) + q[i][j]
    {
      PropagatedEntry(phi, dt, p, i, j);
    }
  }

  // ---------------------------------------------------------------------------
  // update_step

  /** H * Sp: the predicted position. */
  function Measured(f: Filter): (m: Vec)
    requires Valid(f)
    ensures |m| == 3
  {
    MatVec(f.h, f.sp, 3)
  }

  /** `Inn = Z - H * Sp`. */
  function Innovation(f: Filter, zm: Vec): (inn: Vec)
    requires Valid(f) && |zm| == 3
    ensures |inn| == 3
  {
    VecSub(zm, Measured(f))
  }

  /** Pp * H^T. */
  function CovTimesHt(f: Filter): (m: Mat)
    requires Valid(f)
    ensures IsMat(m, 6, 3)
  {
    MatMul(f.pp, Transpose(f.h, 3, 6), 6, 6, 3)
  }

  /** `S = H * Pp * H^T + R`. */
  function InnovationCov(f: Filter): (s: Mat)
    requires Valid(f)
    ensures IsMat(s, 3, 3)
  {
    MatAdd(MatMul(f.h, CovTimesHt(f), 3, 6, 3), f.r, 3, 3)
  }

  /** `K = Pp * H^T * inv(S)`, with the inverse of S supplied as `sInv`. */
  function Gain(f: Filter, sInv: Mat): (k: Mat)
    requires Valid(f) && IsMat(sInv, 3, 3)
    ensures IsMat(k, 6, 3)
  {
    MatMul(CovTimesHt(f), sInv, 6, 3, 3)
  }

  /**
   * `update_step`. numpy's `inv(S)` is not modelled: the caller passes the
   * inverse it obtained, and the properties that need it to be the inverse
   * say so.
   */
  function Update(f: Filter, zm: Vec, sInv: Mat): (g: Filter)
    requires Valid(f) && |zm| == 3 && IsMat(sInv, 3, 3)
    ensures Valid(g)
    ensures g.(sf := f.sf, pf := f.pf) == f
    ensures zm == f.sp[..3] ==> g.sf == f.sp
  {
    ZeroInnovation(f, zm, sInv);
    f.(sf := UpdatedState(f, zm, sInv), pf := UpdatedCov(f, sInv))
  }

  /** `Sf = Sp + K * Inn`. */
  function UpdatedState(f: Filter, zm: Vec, sInv: Mat): (sf: Vec)
    requires Valid(f) && |zm| == 3 && IsMat(sInv, 3, 3)
    ensures |sf| == 6
  {
    VecAdd(f.sp, MatVec(Gain(f, sInv), Innovation(f, zm), 6))
  }

  /** `Pf = (I - K * H) * Pp`. */
  function UpdatedCov(f: Filter, sInv: Mat): (pf: Mat)
    requires Valid(f) && IsMat(sInv, 3, 3)
    ensures IsMat(pf, 6, 6)
  {
    MatMul(MatSub(Identity(6), MatMul(Gain(f, sInv), f.h, 6, 3, 6), 6, 6), f.pp, 6, 6, 6)
  }

  /** Row `i` of H picks out entry `i` of a state. */
  lemma MeasureRow(f: Filter, v: Vec, i: nat)
    requires Valid(f) && |v| == 6 && i < 3
    ensures Dot(f.h[i], v) == v[i]
  {
    DotSelect(f.h[i], v, i);
  }

  /** H * Sp is the position part of the predicted state. */
  lemma MeasuredPosition(f: Filter)
    requires Valid(f)
    ensures Measured(f) == f.sp[..3]
  {
    forall i | 0 <= i < 3
      ensures Measured(f)[i] == f.sp[i]
    {
      MeasureRow(f, f.sp, i);
    }
  }

  /** The innovation is the measurement minus the predicted position. */
  lemma InnovationEntries(f: Filter, zm: Vec)
    requires Valid(f) && |zm| == 3
    ensures forall i :: 0 <= i < 3 ==> Innovation(f, zm)[i] == zm[i] - f.sp[i]
  {
    MeasuredPosition(f);
  }

  /** A measurement equal to the predicted position leaves the predicted state as it is. */
  lemma ZeroInnovation(f: Filter, zm: Vec, sInv: Mat)
    requires Valid(f) && |zm| == 3 && IsMat(sInv, 3, 3)
    ensures zm == f.sp[..3] ==> UpdatedState(f, zm, sInv) == f.sp
  {
    if zm == f.sp[..3] {
      var inn := Innovation(f, zm);
      var k := Gain(f, sInv);
      InnovationEntries(f, zm);
      forall i | 0 <= i < 6
        ensures MatVec(k, inn, 6)[i] == 0.0
      {
        DotZero(k[i], inn);
      }
    }
  }

  /** Column `k` of Pp * H^T is column `k` of Pp. */
  lemma CovTimesHtEntry(f: Filter, i: nat, k: nat)
    requires Valid(f) && i < 6 && k < 3
    ensures CovTimesHt(f)[i][k] == f.pp[i][k]
  {
    ColOfTranspose(f.h, 3, 6, k);
    DotComm(f.pp[i], f.h[k]);
    MeasureRow(f, f.pp[i], k);
  }

  /** S is the position block of Pp plus the identity. */
  lemma InnovationCovEntries(f: Filter)
    requires Valid(f)
    ensures forall i, j :: 0 <= i < 3 && 0 <= j < 3 ==>
      InnovationCov(f)[i][j] == f.pp[i][j] + (if i == j then 1.0 else 0.0)
  {
    var m := CovTimesHt(f);
    forall i, j | 0 <= i < 3 && 0 <= j < 3
      ensures InnovationCov(f)[i][j] == f.pp[i][j] + (if i == j then 1.0 else 0.0)
    {
      MeasureRow(f, Col(m, j), i);
      CovTimesHtEntry(f, i, j);
    }
  }

  /**
   * When `sInv` is the inverse of S, the position rows of the gain are the
   * identity minus `sInv`: K = (S - R) * inv(S) = I - inv(S) on that block.
   */
  lemma GainPositionRow(f: Filter, sInv: Mat, i: nat, k: nat)
    requires Valid(f) && IsMat(sInv, 3, 3)
    requires MatMul(InnovationCov(f), sInv, 3, 3, 3) == Identity(3)
    requires i < 3 && k < 3
    ensures Gain(f, sInv)[i][k] == (if i == k then 1.0 else 0.0) - sInv[i][k]
  {
    var s := InnovationCov(f);
    var m := CovTimesHt(f);
    var c := Col(sInv, k);
    var e := Eye(3, 3)[i];
    assert Dot(s[i], c) == if i == k then 1.0 else 0.0 by {
      assert MatMul(s, sInv, 3, 3, 3)[i][k] == Dot(s[i], c);
    }
    InnovationCovRow(f, i);
    DotAdd(m[i], e, c);
    DotSelect(e, c, i);
  }

  /** Row `i` of S is row `i` of Pp * H^T plus row `i` of R. */
  lemma InnovationCovRow(f: Filter, i: nat)
    requires Valid(f) && i < 3
    ensures InnovationCov(f)[i] == VecAdd(CovTimesHt(f)[i], Eye(3, 3)[i])
  {
    var m := CovTimesHt(f);
    forall j | 0 <= j < 3
      ensures InnovationCov(f)[i][j] == m[i][j] + Eye(3, 3)[i][j]
    {
      MeasureRow(f, Col(m, j), i);
    }
  }

  /**
   * When `sInv` is the inverse of S, the updated position misses the
   * measurement by R * inv(S) * Inn (R is the identity): the residual after
   * the update is the innovation scaled down by the innovation covariance.
   */
  lemma UpdateResidual(f: Filter, zm: Vec, sInv: Mat)
    requires Valid(f) && |zm| == 3 && IsMat(sInv, 3, 3)
    requires MatMul(InnovationCov(f), sInv, 3, 3, 3) == Identity(3)
    ensures forall i :: 0 <= i < 3 ==>
      zm[i] - Update(f, zm, sInv).sf[i] == Dot(sInv[i], Innovation(f, zm))
  {
    forall i | 0 <= i < 3
      ensures zm[i] - UpdatedState(f, zm, sInv)[i] == Dot(sInv[i], Innovation(f, zm))
    {
      ResidualEntry(f, zm, sInv, i);
    }
  }

  lemma ResidualEntry(f: Filter, zm: Vec, sInv: Mat, i: nat)
    requires Valid(f) && |zm| == 3 && IsMat(sInv, 3, 3)
    requires MatMul(InnovationCov(f), sInv, 3, 3, 3) == Identity(3)
    requires i < 3
    ensures zm[i] - UpdatedState(f, zm, sInv)[i] == Dot(sInv[i], Innovation(f, zm))
  {
    var inn := Innovation(f, zm);
    var k := Gain(f, sInv);
    GainRowPlusInverse(f, sInv, i);
    DotAdd(k[i], sInv[i], inn);
    DotSelect(Eye(3, 3)[i], inn, i);
    InnovationEntries(f, zm);
    assert UpdatedState(f, zm, sInv)[i] == f.sp[i] + Dot(k[i], inn);
  }

  /** Row `i` of the gain plus row `i` of `inv(S)` is row `i` of the identity. */
  lemma GainRowPlusInverse(f: Filter, sInv: Mat, i: nat)
    requires Valid(f) && IsMat(sInv, 3, 3)
    requires MatMul(InnovationCov(f), sInv, 3, 3, 3) == Identity(3)
    requires i < 3
    ensures VecAdd(Gain(f, sInv)[i], sInv[i]) == Eye(3, 3)[i]
  {
    forall l | 0 <= l < 3
      ensures VecAdd(Gain(f, sInv)[i], sInv[i])[l] == Eye(3, 3)[i][l]
    {
      GainPositionRow(f, sInv, i, l);
    }
  }

  /** Entry `(i, l)` of K * H: the gain's column `l` for a position, zero for a velocity. */
  lemma GainTimesMeasureEntry(f: Filter, sInv: Mat, i: nat, l: nat)
    requires Valid(f) && IsMat(sInv, 3, 3) && i < 6 && l < 6
    ensures MatMul(Gain(f, sInv), f.h, 6, 3, 6)[i][l] == if l < 3 then Gain(f, sInv)[i][l] else 0.0
  {
    var k := Gain(f, sInv);
    var c := Col(f.h, l);
    if l < 3 {
      DotComm(k[i], c);
      DotSelect(c, k[i], l);
    } else {
      DotZero(k[i], c);
    }
  }

  /** Row `i` of I - K * H: row `i` of `inv(S)` followed by three zeros. */
  lemma CorrectionRow(f: Filter, sInv: Mat, i: nat, l: nat)
    requires Valid(f) && IsMat(sInv, 3, 3)
    requires MatMul(InnovationCov(f), sInv, 3, 3, 3) == Identity(3)
    requires i < 3 && l < 6
    ensures MatSub(Identity(6), MatMul(Gain(f, sInv), f.h, 6, 3, 6), 6, 6)[i][l] ==
      if l < 3 then sInv[i][l] else 0.0
  {
    GainTimesMeasureEntry(f, sInv, i, l);
    if l < 3 {
      GainPositionRow(f, sInv, i, l);
    }
  }

  /**
   * When `sInv` is the inverse of S, the position rows of the updated
   * covariance are R * inv(S) times the position rows of Pp (R is the
   * identity).
   */
  lemma UpdateCovariance(f: Filter, zm: Vec, sInv: Mat)
    requires Valid(f) && |zm| == 3 && IsMat(sInv, 3, 3)
    requires MatMul(InnovationCov(f), sInv, 3, 3, 3) == Identity(3)
    ensures forall i, j :: 0 <= i < 3 && 0 <= j < 6 ==>
      Update(f, zm, sInv).pf[i][j] == Dot(sInv[i], Col(f.pp, j)[..3])
  {
    forall i, j | 0 <= i < 3 && 0 <= j < 6
      ensures UpdatedCov(f, sInv)[i][j] == Dot(sInv[i], Col(f.pp, j)[..3])
    {
      CovarianceEntry(f, sInv, i, j);
    }
  }

  lemma CovarianceEntry(f: Filter, sInv: Mat, i: nat, j: nat)
    requires Valid(f) && IsMat(sInv, 3, 3)
    requires MatMul(InnovationCov(f), sInv, 3, 3, 3) == Identity(3)
    requires i < 3 && j < 6
    ensures UpdatedCov(f, sInv)[i][j] == Dot(sInv[i], Col(f.pp, j)[..3])
  {
    var m := MatSub(Identity(6), MatMul(Gain(f, sInv), f.h, 6, 3, 6), 6, 6);
    var c := Col(f.pp, j);
    forall l | 0 <= l < 6
      ensures m[i][l] == if l < 3 then sInv[i][l] else 0.0
    {
      CorrectionRow(f, sInv, i, l);
    }
    DotPrefix(m[i], c, 3);
    DotToAgree(m[i], c, sInv[i], c[..3], 3);
    assert UpdatedCov(f, sInv)[i][j] == Dot(m[i], c);
  }

  // ---------------------------------------------------------------------------
  // Properties across calls

  /**
   * Q does not compound: two filters that agree on the previous measurement
   * time and the plant noise get the same Q from a prediction, whatever Q
   * each held before.
   */
  lemma {:induction false} NoiseDoesNotCompound(f1: Filter, f2: Filter, currentTime: real)
    requires Valid(f1) && Valid(f2)
    requires f1.prevTime == f2.prevTime && f1.plantNoise == f2.plantNoise
    ensures Predict(f1, currentTime).q == Predict(f2, currentTime).q
  {
    var q1 := Predict(f1, currentTime).q;
    var q2 := Predict(f2, currentTime).q;
    PredictRebuildsNoise(f1, currentTime);
    PredictRebuildsNoise(f2, currentTime);
    var dt := StepOf(f1, currentTime);
    forall i | 0 <= i < 6
      ensures q1[i] == q2[i]
    {
      assert |q1[i]| == 6 == |q2[i]|;
      forall j | 0 <= j < 6
        ensures q1[i][j] == q2[i][j]
      {
        assert q1[i][j] == f1.plantNoise * CVNoise(i, j, dt) == q2[i][j];
      }
    }
  }

  /**
   * The bootstrap velocity points backwards: for a target seen at `p` at
   * `t1` and at `q = p + u * (t2 - t1)` at `t2`, the second bootstrap call
   * records the velocity `-u`, because it divides `Z1 - Z2` rather than
   * `Z2 - Z1` by the elapsed time.
   */
  lemma BootVelocityReversed(f: Filter, p: Vec, q: Vec, u: Vec, t1: real, t2: real)
    requires Valid(f) && StageOf(f) == Empty
    requires |p| == 3 && |q| == 3 && |u| == 3 && t1 != t2
    requires forall k :: 0 <= k < 3 ==> q[k] == p[k] + u[k] * (t2 - t1)
    ensures Initialize(Initialize(f, p[0], p[1], p[2], 0.0, 0.0, 0.0, t1), q[0], q[1], q[2], 0.0, 0.0, 0.0, t2).vel
      == Velocity([-u[0], -u[1], -u[2]])
  {
    var g1 := Initialize(f, p[0], p[1], p[2], 0.0, 0.0, 0.0, t1);
    var g := Initialize(g1, q[0], q[1], q[2], 0.0, 0.0, 0.0, t2);
    assert g1.z1 == p && g1.measTime == t1 && StageOf(g1) == OneSample;
    assert g.z2 == q && g.vel.Velocity?;
    var v := g.vel.v;
    forall k | 0 <= k < 3
      ensures v[k] == -u[k]
    {
      assert v[k] * (t2 - t1) == g1.z1[k] - g.z2[k];
      ReversedQuotient(v[k], u[k], t2 - t1, p[k], q[k]);
    }
    assert v == [-u[0], -u[1], -u[2]];
  }

  /** A quotient `x` with `x * d == a - b` for `b == a + w * d` and a non-zero `d` is `-w`. */
  lemma ReversedQuotient(x: real, w: real, d: real, a: real, b: real)
    requires d != 0.0 && x * d == a - b && b == a + w * d
    ensures x == -w
  {
    assert (x + w) * d == 0.0;
  }
}

=== FILE: matrix.dfy ===
/**
 * Dense real vectors and matrices: the part of numpy the constant-velocity
 * filter uses. Matrices are sequences of rows; dimensions are passed
 * explicitly so that every product states the shapes it expects.
 */
module Matrix {

  type Vec = seq<real>
  type Mat = seq<seq<real>>

  /** `m` has `rows` rows of `cols` entries each. */
  predicate IsMat(m: Mat, rows: nat, cols: nat) {
    |m| == rows && forall i :: 0 <= i < rows ==> |m[i]| == cols
  }

  /** `np.zeros(n)`. */
  function Zeros(n: nat): (v: Vec)
    ensures |v| == n
    ensures forall i :: 0 <= i < n ==> v[i] == 0.0
  {
    seq(n, _ => 0.0)
  }

  /** `np.eye(rows, cols)`: ones on the main diagonal, zeros elsewhere. */
  function Eye(rows: nat, cols: nat): (m: Mat)
    ensures IsMat(m, rows, cols)
    ensures forall i, j :: 0 <= i < rows && 0 <= j < cols ==> m[i][j] == if i == j then 1.0 else 0.0
  {
    seq(rows, i => seq(cols, j => if i == j then 1.0 else 0.0))
  }

  function Identity(n: nat): (m: Mat)
    ensures IsMat(m, n, n)
  {
    Eye(n, n)
  }

  /** The sum of `u[k] * v[k]` over the first `n` positions. */
  function DotTo(u: Vec, v: Vec, n: nat): real
    requires n <= |u| && n <= |v|
  {
    if n == 0 then 0.0 else DotTo(u, v, n - 1) + u[n - 1] * v[n - 1]
  }

  function Dot(u: Vec, v: Vec): real
    requires |u| == |v|
  {
    DotTo(u, v, |u|)
  }

  /** Column `j` of `m`. */
  function Col(m: Mat, j: nat): (c: Vec)
    requires forall i :: 0 <= i < |m| ==> j < |m[i]|
    ensures |c| == |m|
  {
    seq(|m|, i requires 0 <= i < |m| => m[i][j])
  }

  function Transpose(m: Mat, rows: nat, cols: nat): (t: Mat)
    requires IsMat(m, rows, cols)
    ensures IsMat(t, cols, rows)
  {
    seq(cols, j requires 0 <= j < cols => Col(m, j))
  }

  /** The product of an `n`x`k` and a `k`x`m` matrix (`np.dot`). */
  function MatMul(a: Mat, b: Mat, n: nat, k: nat, m: nat): (c: Mat)
    requires IsMat(a, n, k) && IsMat(b, k, m)
    ensures IsMat(c, n, m)
  {
    seq(n, i requires 0 <= i < n => seq(m, j requires 0 <= j < m => Dot(a[i], Col(b, j))))
  }

  /** The product of an `n`x`|v|` matrix and a column vector. */
  function MatVec(a: Mat, v: Vec, n: nat): (w: Vec)
    requires IsMat(a, n, |v|)
    ensures |w| == n
  {
    seq(n, i requires 0 <= i < n => Dot(a[i], v))
  }

  function MatAdd(a: Mat, b: Mat, n: nat, m: nat): (c: Mat)
    requires IsMat(a, n, m) && IsMat(b, n, m)
    ensures IsMat(c, n, m)
  {
    seq(n, i requires 0 <= i < n => seq(m, j requires 0 <= j < m => a[i][j] + b[i][j]))
  }

  function MatSub(a: Mat, b: Mat, n: nat, m: nat): (c: Mat)
    requires IsMat(a, n, m) && IsMat(b, n, m)
    ensures IsMat(c, n, m)
  {
    seq(n, i requires 0 <= i < n => seq(m, j requires 0 <= j < m => a[i][j] - b[i][j]))
  }

  /** Every entry of `a` multiplied by `s`. */
  function Scale(a: Mat, s: real, n: nat, m: nat): (c: Mat)
    requires IsMat(a, n, m)
    ensures IsMat(c, n, m)
  {
    seq(n, i requires 0 <= i < n => seq(m, j requires 0 <= j < m => a[i][j] * s))
  }

  function VecAdd(u: Vec, v: Vec): (w: Vec)
    requires |u| == |v|
    ensures |w| == |u|
    ensures forall i :: 0 <= i < |u| ==> w[i] == u[i] + v[i]
  {
    seq(|u|, i requires 0 <= i < |u| => u[i] + v[i])
  }

  function VecSub(u: Vec, v: Vec): (w: Vec)
    requires |u| == |v|
    ensures |w| == |u|
    ensures forall i :: 0 <= i < |u| ==> w[i] == u[i] - v[i]
  {
    seq(|u|, i requires 0 <= i < |u| => u[i] - v[i])
  }

  predicate IsSymmetric(m: Mat, n: nat) {
    IsMat(m, n, n) && forall i, j :: 0 <= i < n && 0 <= j < n ==> m[i][j] == m[j][i]
  }

  // ---------------------------------------------------------------------------
  // Facts about dot products

  lemma {:induction false} DotToComm(u: Vec, v: Vec, n: nat)
    requires n <= |u| && n <= |v|
    ensures DotTo(u, v, n) == DotTo(v, u, n)
  {
    if n > 0 {
      DotToComm(u, v, n - 1);
    }
  }

  /** The dot product is symmetric in its arguments. */
  lemma DotComm(u: Vec, v: Vec)
    requires |u| == |v|
    ensures Dot(u, v) == Dot(v, u)
  {
    DotToComm(u, v, |u|);
  }

  lemma {:induction false} DotToPair(u: Vec, v: Vec, n: nat, a: nat, b: nat)
    requires n <= |u| == |v|
    requires a < b < |u|
    requires forall k :: 0 <= k < |u| && k != a && k != b ==> u[k] == 0.0
    ensures DotTo(u, v, n) ==
      (if a < n then u[a] * v[a] else 0.0) + (if b < n then u[b] * v[b] else 0.0)
  {
    if n > 0 {
      DotToPair(u, v, n - 1, a, b);
    }
  }

  /** A row with at most two non-zero entries picks out those two positions. */
  lemma DotPair(u: Vec, v: Vec, a: nat, b: nat)
    requires |u| == |v|
    requires a < b < |u|
    requires forall k :: 0 <= k < |u| && k != a && k != b ==> u[k] == 0.0
    ensures Dot(u, v) == u[a] * v[a] + u[b] * v[b]
  {
    DotToPair(u, v, |u|, a, b);
  }

  lemma {:induction false} DotToSelect(u: Vec, v: Vec, n: nat, a: nat)
    requires n <= |u| == |v|
    requires a < |u|
    requires forall k :: 0 <= k < |u| && k != a ==> u[k] == 0.0
    ensures DotTo(u, v, n) == if a < n then u[a] * v[a] else 0.0
  {
    if n > 0 {
      DotToSelect(u, v, n - 1, a);
    }
  }

  /** A row with a single non-zero entry picks out that position. */
  lemma DotSelect(u: Vec, v: Vec, a: nat)
    requires |u| == |v|
    requires a < |u|
    requires forall k :: 0 <= k < |u| && k != a ==> u[k] == 0.0
    ensures Dot(u, v) == u[a] * v[a]
  {
    DotToSelect(u, v, |u|, a);
  }

  lemma {:induction false} DotToZero(u: Vec, v: Vec, n: nat)
    requires n <= |u| == |v|
    requires forall k :: 0 <= k < |v| ==> v[k] == 0.0
    ensures DotTo(u, v, n) == 0.0
  {
    if n > 0 {
      DotToZero(u, v, n - 1);
    }
  }

  /** Any row times the zero vector is zero. */
  lemma DotZero(u: Vec, v: Vec)
    requires |u| == |v|
    requires forall k :: 0 <= k < |v| ==> v[k] == 0.0
    ensures Dot(u, v) == 0.0
  {
    DotToZero(u, v, |u|);
  }

  lemma {:induction false} DotToTail(u: Vec, v: Vec, n: nat, p: nat)
    requires p <= n <= |u| == |v|
    requires forall k :: p <= k < |u| ==> u[k] == 0.0
    ensures DotTo(u, v, n) == DotTo(u, v, p)
  {
    if n > p {
      DotToTail(u, v, n - 1, p);
    }
  }

  /** A row that is zero from position `p` on only sees the first `p` positions. */
  lemma DotPrefix(u: Vec, v: Vec, p: nat)
    requires p <= |u| == |v|
    requires forall k :: p <= k < |u| ==> u[k] == 0.0
    ensures Dot(u, v) == DotTo(u, v, p)
  {
    DotToTail(u, v, |u|, p);
  }

  lemma {:induction false} DotToAdd(u: Vec, w: Vec, v: Vec, n: nat)
    requires n <= |u| == |w| == |v|
    ensures DotTo(VecAdd(u, w), v, n) == DotTo(u, v, n) + DotTo(w, v, n)
  {
    if n > 0 {
      DotToAdd(u, w, v, n - 1);
    }
  }

  /** The dot product distributes over a sum in its first argument. */
  lemma DotAdd(u: Vec, w: Vec, v: Vec)
    requires |u| == |w| == |v|
    ensures Dot(VecAdd(u, w), v) == Dot(u, v) + Dot(w, v)
  {
    DotToAdd(u, w, v, |u|);
  }

  /** Dot products over the first `n` positions only see those positions. */
  lemma {:induction false} DotToAgree(u: Vec, v: Vec, u': Vec, v': Vec, n: nat)
    requires n <= |u| == |v| && n <= |u'| == |v'|
    requires forall k :: 0 <= k < n ==> u[k] == u'[k] && v[k] == v'[k]
    ensures DotTo(u, v, n) == DotTo(u', v', n)
  {
    if n > 0 {
      DotToAgree(u, v, u', v', n - 1);
    }
  }

  /** Column `j` of the transpose of `m` is row `j` of `m`. */
  lemma ColOfTranspose(m: Mat, rows: nat, cols: nat, j: nat)
    requires IsMat(m, rows, cols)
    requires j < rows
    ensures Col(Transpose(m, rows, cols), j) == m[j]
  {
    var t := Transpose(m, rows, cols);
    assert forall k :: 0 <= k < cols ==> Col(t, j)[k] == m[j][k];
  }
}

=== FILE: results.dfy ===
/** Failure-carrying results for the operations of the tracker that can fail. */
module Results {

  /** The ways the tracking pipeline can stop before producing a result. */
  datatype Failure =
    /** The measurement list was empty: the batcher reads element 0 unconditionally. */
    | EmptyMeasurements

  /** Either a value or the failure that prevented computing it. */
  datatype Result<+T> = Ok(value: T) | Err(error: Failure)
}

=== FILE: tracker.dfy ===
/**
 * The per-group loop of `main`: every measurement of every group goes
 * through the filter's bootstrap; once both flags are set, each further
 * measurement is predicted to, associated against its whole group and used
 * for an update, and the result is recorded under the group's track id.
 * Printing and plotting are not modelled.
 */
module Tracker {
  import opened Matrix
  import opened Results
  import opened Batching
  import CVFilter

  /** `Track-n`. */
  datatype TrackId = TrackId(n: nat)

  /** `Report-n`. */
  datatype ReportId = ReportId(n: nat)

  /** One entry of `track_report_associations`. */
  datatype Association = Association(trackPosition: Vec, bestReport: ReportId, reportPosition: Vec)

  /**
   * The library routines the loop calls: `sph2cart(az, el, r)`, the
   * Euclidean norm, `linear_sum_assignment` (returning row and column
   * indices) and `np.linalg.inv`.
   */
  datatype Env = Env(
    sph2cart: (real, real, real) -> Vec,
    norm: Vec -> real,
    assign: Mat -> (seq<int>, seq<int>),
    inv: Mat -> Mat)

  /**
   * An assignment for an `n`x`k` cost matrix: `min(n, k)` pairs of a row
   * index in `[0, n)` and a column index in `[0, k)`.
   */
  predicate IsAssignment(a: (seq<int>, seq<int>), n: nat, k: nat) {
    && |a.0| == |a.1| == (if n < k then n else k)
    && (forall p :: 0 <= p < |a.0| ==> 0 <= a.0[p] < n)
    && (forall p :: 0 <= p < |a.1| ==> 0 <= a.1[p] < k)
  }

  /**
   * What the model relies on from the library routines: a point has three
   * coordinates, the solver returns an assignment, the inverse of a 3x3
   * matrix is 3x3.
   */
  ghost predicate EnvOk(env: Env) {
    && (forall az, el, rg :: |env.sph2cart(az, el, rg)| == 3)
    && (forall c: Mat, k: nat {:trigger env.assign(c), IsMat(c, |c|, k)} ::
          IsMat(c, |c|, k) ==> IsAssignment(env.assign(c), |c|, k))
    && (forall m: Mat {:trigger env.inv(m)} :: IsMat(m, 3, 3) ==> IsMat(env.inv(m), 3, 3))
  }

  /** The Cartesian position of a measurement. */
  function Cart(env: Env, m: Measurement): (p: Vec)
    requires EnvOk(env)
    ensures |p| == 3
  {
    env.sph2cart(m.azimuth, m.elevation, m.range)
  }

  /** `measurements_array`: the Cartesian positions of the whole group. */
  function Candidates(env: Env, group: Group): (ps: seq<Vec>)
    requires EnvOk(env)
    ensures |ps| == |group|
    ensures forall j :: 0 <= j < |group| ==> ps[j] == Cart(env, group[j])
  {
    seq(|group|, j requires 0 <= j < |group| => Cart(env, group[j]))
  }

  /** `cost_matrix`: one row per candidate holding its distance to the predicted position. */
  function CostColumn(env: Env, predicted: Vec, ps: seq<Vec>): (c: Mat)
    requires forall j :: 0 <= j < |ps| ==> |ps[j]| == |predicted|
    ensures IsMat(c, |ps|, 1)
  {
    seq(|ps|, j requires 0 <= j < |ps| => [env.norm(VecSub(predicted, ps[j]))])
  }

  /**
   * `col_ind[0]` for an N x 1 cost matrix is always 0: the solver pairs
   * one row with the only column, and the column index is what the loop
   * reads. The best match is therefore always the group's first
   * measurement.
   */
  lemma BestMatchIsFirst(env: Env, c: Mat)
    requires EnvOk(env) && |c| > 0 && IsMat(c, |c|, 1)
    ensures |env.assign(c).1| == 1 && env.assign(c).1[0] == 0
  {
    assert IsAssignment(env.assign(c), |c|, 1);
  }

  /** The filter and the associations recorded so far. */
  datatype State = State(filter: CVFilter.Filter, associations: map<TrackId, Association>)

  /** How many bootstrap measurements a stage has absorbed. */
  function Fed(s: CVFilter.Stage): nat {
    match s
    case Empty => 0
    case OneSample => 1
    case Ready => 2
  }

  function Min(a: int, b: int): int {
    if a < b then a else b
  }

  /**
   * The body of the inner loop for measurement `i` of group `g` (counted
   * from zero). Both bootstrap branches only initialise; afterwards the
   * measurement goes through `TrackStep` and the association is stored under
   * `Track-(g+1)`.
   */
  function Step(env: Env, st: State, g: nat, group: Group, i: nat): (st': State)
    requires EnvOk(env) && CVFilter.Valid(st.filter) && i < |group|
    ensures CVFilter.Valid(st'.filter)
    ensures CVFilter.StageOf(st'.filter) == CVFilter.NextStage(CVFilter.StageOf(st.filter))
    ensures st'.filter.measTime == group[i].time
    ensures CVFilter.StageOf(st.filter) != CVFilter.Ready ==>
      && st'.associations == st.associations
      && st'.filter.sf == st.filter.sf && st'.filter.pf == st.filter.pf
    ensures CVFilter.StageOf(st.filter) == CVFilter.Ready ==>
      && st'.associations == st.associations[TrackId(g + 1) :=
           Association(st'.filter.sf[..3], ReportId(1), Cart(env, group[0]))]
    ensures CVFilter.StageOf(st.filter) == CVFilter.Ready ==>
      st'.filter == Correct(env, PredictTo(st.filter, Cart(env, group[i]), group[i].time), Cart(env, group[0]))
  {
    var p := Cart(env, group[i]);
    var f := st.filter;
    if !f.firstRepFlag then
      st.(filter := CVFilter.Initialize(f, p[0], p[1], p[2], 0.0, 0.0, 0.0, group[i].time))
    else if f.firstRepFlag && !f.secondRepFlag then
      st.(filter := CVFilter.Initialize(f, p[0], p[1], p[2], 0.0, 0.0, 0.0, group[i].time))
    else
      var (f', a) := TrackStep(env, f, g, group, i);
      State(f', st.associations[TrackId(g + 1) := a])
  }

  /** The inner loop over the first `n` measurements of group `g`. */
  function FeedGroup(env: Env, st: State, g: nat, group: Group, n: nat): (r: State)
    requires EnvOk(env) && CVFilter.Valid(st.filter) && n <= |group|
    ensures CVFilter.Valid(r.filter)
    ensures Fed(CVFilter.StageOf(r.filter)) == Min(2, Fed(CVFilter.StageOf(st.filter)) + n)
    decreases n
  {
    if n == 0 then st
    else Step(env, FeedGroup(env, st, g, group, n - 1), g, group, n - 1)
  }

  /**
   * While the bootstrap absorbs the measurements, the loop records nothing
   * and leaves the filtered state and covariance as they were.
   */
  lemma {:induction false} FeedGroupBootstrap(env: Env, st: State, g: nat, group: Group, n: nat)
    requires EnvOk(env) && CVFilter.Valid(st.filter) && n <= |group|
    requires Fed(CVFilter.StageOf(st.filter)) + n < 3
    ensures var r := FeedGroup(env, st, g, group, n);
      && r.associations == st.associations
      && r.filter.sf == st.filter.sf && r.filter.pf == st.filter.pf
  {
    if n > 0 {
      var prev := FeedGroup(env, st, g, group, n - 1);
      FeedGroupBootstrap(env, st, g, group, n - 1);
      assert FeedGroup(env, st, g, group, n) == Step(env, prev, g, group, n - 1);
    }
  }

  /**
   * Once the measurements reach past the bootstrap, every further
   * measurement rewrites the group's record, so the record left is the one
   * of the last measurement: the final track position, report 1 and the
   * group's first measurement. No other record changes.
   */
  lemma {:induction false} FeedGroupRecord(env: Env, st: State, g: nat, group: Group, n: nat)
    requires EnvOk(env) && CVFilter.Valid(st.filter) && n <= |group|
    requires Fed(CVFilter.StageOf(st.filter)) + n >= 3
    ensures |group| > 0
    ensures var r := FeedGroup(env, st, g, group, n);
      r.associations == st.associations[TrackId(g + 1) :=
        Association(r.filter.sf[..3], ReportId(1), Cart(env, group[0]))]
  {
    var prev := FeedGroup(env, st, g, group, n - 1);
    var r := Step(env, prev, g, group, n - 1);
    assert FeedGroup(env, st, g, group, n) == r;
    if Fed(CVFilter.StageOf(st.filter)) + (n - 1) >= 3 {
      FeedGroupRecord(env, st, g, group, n - 1);
      Overwrite(st.associations, TrackId(g + 1), prev.associations[TrackId(g + 1)],
        Association(r.filter.sf[..3], ReportId(1), Cart(env, group[0])));
    } else {
      FeedGroupBootstrap(env, st, g, group, n - 1);
    }
  }

  /** The whole inner loop over one group: one record written, or the bootstrap absorbs it all. */
  lemma GroupEffect(env: Env, st: State, g: nat, group: Group)
    requires EnvOk(env) && CVFilter.Valid(st.filter)
    ensures var r := FeedGroup(env, st, g, group, |group|);
      if Fed(CVFilter.StageOf(st.filter)) + |group| >= 3 then
        && |group| > 0
        && r.associations == st.associations[TrackId(g + 1) :=
             Association(r.filter.sf[..3], ReportId(1), Cart(env, group[0]))]
      else
        && r.associations == st.associations
        && r.filter.sf == st.filter.sf && r.filter.pf == st.filter.pf
  {
    if Fed(CVFilter.StageOf(st.filter)) + |group| >= 3 {
      FeedGroupRecord(env, st, g, group, |group|);
    } else {
      FeedGroupBootstrap(env, st, g, group, |group|);
    }
  }

  /** A group leaves every entry but its own `Track-(g+1)` as it was. */
  lemma GroupKeepsOthers(env: Env, st: State, g: nat, group: Group, t: TrackId)
    requires EnvOk(env) && CVFilter.Valid(st.filter) && t != TrackId(g + 1)
    ensures KeepsKey(st.associations, FeedGroup(env, st, g, group, |group|).associations, t)
  {
    GroupEffect(env, st, g, group);
  }

  /** A group only ever records `Report-1`. */
  lemma GroupFirstReport(env: Env, st: State, g: nat, group: Group)
    requires EnvOk(env) && CVFilter.Valid(st.filter) && FirstReportOnly(st.associations)
    ensures FirstReportOnly(FeedGroup(env, st, g, group, |group|).associations)
  {
    GroupEffect(env, st, g, group);
  }

  /** The outer loop over the first `n` groups of `enumerate(measurement_groups)`; group `k` writes `Track-(k+1)`. */
  function FeedGroups(env: Env, st: State, groups: seq<Group>, n: nat): (r: State)
    requires EnvOk(env) && CVFilter.Valid(st.filter) && n <= |groups|
    ensures CVFilter.Valid(r.filter)
    ensures Fed(CVFilter.StageOf(r.filter)) == Min(2, Fed(CVFilter.StageOf(st.filter)) + |Flatten(groups[..n])|)
    decreases n
  {
    if n == 0 then st
    else
      FlattenPrefix(groups, n - 1);
      FeedGroup(env, FeedGroups(env, st, groups, n - 1), n - 1, groups[n - 1], |groups[n - 1]|)
  }

  /** The first `n` groups are the first `n - 1` and then group `n - 1`. */
  lemma FeedGroupsLast(env: Env, st: State, groups: seq<Group>, n: nat)
    requires EnvOk(env) && CVFilter.Valid(st.filter) && 0 < n <= |groups|
    ensures FeedGroups(env, st, groups, n) == FeedGroup(env, FeedGroups(env, st, groups, n - 1), n - 1, groups[n - 1], |groups[n - 1]|)
  {
  }

  /** Whether the loop leaves `m2`'s entry for `t` as it was in `m1`. */
  predicate KeepsKey(m1: map<TrackId, Association>, m2: map<TrackId, Association>, t: TrackId) {
    && (t in m2 <==> t in m1)
    && (t in m1 ==> m2[t] == m1[t])
  }

  /** Keeping an entry composes across two stretches of the loop. */
  lemma KeepsKeyTrans(m1: map<TrackId, Association>, m2: map<TrackId, Association>, m3: map<TrackId, Association>, t: TrackId)
    requires KeepsKey(m1, m2, t) && KeepsKey(m2, m3, t)
    ensures KeepsKey(m1, m3, t)
  {
  }

  /**
   * What the loop leaves under `Track-(k+1)`: a record exactly when group
   * `k` is non-empty and the measurements up to its end reach past the
   * bootstrap, holding the track position after that group, report 1 and
   * the group's first measurement; otherwise the entry as it was before the
   * loop.
   */
  ghost predicate TrackEntry(env: Env, st: State, groups: seq<Group>, k: nat, m: map<TrackId, Association>)
    requires EnvOk(env) && CVFilter.Valid(st.filter) && k < |groups|
  {
    if |groups[k]| > 0 && Fed(CVFilter.StageOf(st.filter)) + |Flatten(groups[..k + 1])| >= 3 then
      && TrackId(k + 1) in m
      && m[TrackId(k + 1)] ==
           Association(FeedGroups(env, st, groups, k + 1).filter.sf[..3], ReportId(1), Cart(env, groups[k][0]))
    else
      KeepsKey(st.associations, m, TrackId(k + 1))
  }

  /** Group `k`'s own pass leaves its entry as `TrackEntry` describes. */
  lemma TrackAfterGroup(env: Env, st: State, groups: seq<Group>, k: nat)
    requires EnvOk(env) && CVFilter.Valid(st.filter) && k < |groups|
    ensures TrackEntry(env, st, groups, k, FeedGroups(env, st, groups, k + 1).associations)
  {
    var prev := FeedGroups(env, st, groups, k);
    assert FeedGroups(env, st, groups, k + 1) == FeedGroup(env, prev, k, groups[k], |groups[k]|);
    FlattenPrefix(groups, k);
    FeedGroupsOthers(env, st, groups, k, TrackId(k + 1));
    GroupEffect(env, prev, k, groups[k]);
  }

  /** The later groups do not touch group `k`'s entry, so it is final. */
  lemma {:induction false} FeedGroupsTrack(env: Env, st: State, groups: seq<Group>, n: nat, k: nat)
    requires EnvOk(env) && CVFilter.Valid(st.filter) && k < n <= |groups|
    ensures TrackEntry(env, st, groups, k, FeedGroups(env, st, groups, n).associations)
    decreases n
  {
    if n == k + 1 {
      TrackAfterGroup(env, st, groups, k);
    } else {
      var prev := FeedGroups(env, st, groups, n - 1);
      assert FeedGroups(env, st, groups, n) == FeedGroup(env, prev, n - 1, groups[n - 1], |groups[n - 1]|);
      FeedGroupsTrack(env, st, groups, n - 1, k);
      GroupKeepsOthers(env, prev, n - 1, groups[n - 1], TrackId(k + 1));
    }
  }

  /** Entries of ids outside `Track-1` .. `Track-n` are left as they were. */
  lemma {:induction false} FeedGroupsOthers(env: Env, st: State, groups: seq<Group>, n: nat, t: TrackId)
    requires EnvOk(env) && CVFilter.Valid(st.filter) && n <= |groups|
    requires t.n < 1 || n < t.n
    ensures KeepsKey(st.associations, FeedGroups(env, st, groups, n).associations, t)
    decreases n
  {
    if n > 0 {
      FeedGroupsOthers(env, st, groups, n - 1, t);
      var prev := FeedGroups(env, st, groups, n - 1);
      GroupKeepsOthers(env, prev, n - 1, groups[n - 1], t);
      var last := FeedGroup(env, prev, n - 1, groups[n - 1], |groups[n - 1]|);
      KeepsKeyTrans(st.associations, prev.associations, last.associations, t);
      FeedGroupsLast(env, st, groups, n);
    }
  }

  /**
   * While the bootstrap absorbs every measurement of the first `n` groups,
   * nothing is recorded and the filtered state and covariance stay as they
   * were.
   */
  lemma {:induction false} FeedGroupsBootstrap(env: Env, st: State, groups: seq<Group>, n: nat)
    requires EnvOk(env) && CVFilter.Valid(st.filter) && n <= |groups|
    requires Fed(CVFilter.StageOf(st.filter)) + |Flatten(groups[..n])| < 3
    ensures var r := FeedGroups(env, st, groups, n);
      && r.associations == st.associations
      && r.filter.sf == st.filter.sf && r.filter.pf == st.filter.pf
    decreases n
  {
    if n > 0 {
      var prev := FeedGroups(env, st, groups, n - 1);
      assert FeedGroups(env, st, groups, n) == FeedGroup(env, prev, n - 1, groups[n - 1], |groups[n - 1]|);
      FlattenPrefix(groups, n - 1);
      FeedGroupsBootstrap(env, st, groups, n - 1);
      GroupEffect(env, prev, n - 1, groups[n - 1]);
    }
  }

  /** Every record names `Report-1`. */
  ghost predicate FirstReportOnly(m: map<TrackId, Association>) {
    forall t :: t in m ==> m[t].bestReport == ReportId(1)
  }

  /** The loop only ever records `Report-1`. */
  lemma {:induction false} FeedGroupsFirstReport(env: Env, st: State, groups: seq<Group>, n: nat)
    requires EnvOk(env) && CVFilter.Valid(st.filter) && n <= |groups|
    requires FirstReportOnly(st.associations)
    ensures FirstReportOnly(FeedGroups(env, st, groups, n).associations)
    decreases n
  {
    if n > 0 {
      var prev := FeedGroups(env, st, groups, n - 1);
      FeedGroupsLast(env, st, groups, n);
      FeedGroupsFirstReport(env, st, groups, n - 1);
      GroupFirstReport(env, prev, n - 1, groups[n - 1]);
    }
  }

  /** A fresh `CVFilter()` and an empty association table. */
  function Start(): (st: State)
    ensures CVFilter.Valid(st.filter) && Fed(CVFilter.StageOf(st.filter)) == 0
    ensures st.associations == map[]
  {
    State(CVFilter.New(), map[])
  }

  /**
   * `main` after reading the measurements: batch them with the 50-unit
   * window and run the loop from a fresh filter. An empty input fails in
   * the batcher. At most two measurements only bootstrap the filter and
   * leave no record; from three on, the last group always leaves one. Every
   * record names `Report-1`.
   */
  function Track(env: Env, ms: seq<Measurement>): (r: Result<map<TrackId, Association>>)
    requires EnvOk(env)
    ensures r.Err? <==> |ms| == 0
    ensures r.Ok? ==> (r.value == map[] <==> |ms| < 3)
    ensures r.Ok? ==> FirstReportOnly(r.value)
  {
    match FormMeasurementGroups(ms, DefaultMaxTimeDiff)
    case Err(e) => Err(e)
    case Ok(groups) =>
      var m := FeedGroups(env, Start(), groups, |groups|).associations;
      TrackOutcome(env, ms, groups);
      Ok(m)
  }

  /** The facts `Track` states, for the batches of a non-empty input. */
  lemma TrackOutcome(env: Env, ms: seq<Measurement>, groups: seq<Group>)
    requires EnvOk(env) && FormMeasurementGroups(ms, DefaultMaxTimeDiff) == Ok(groups)
    ensures var m := FeedGroups(env, Start(), groups, |groups|).associations;
      && (m == map[] <==> |ms| < 3)
      && FirstReportOnly(m)
  {
    FeedGroupsFirstReport(env, Start(), groups, |groups|);
    if |ms| < 3 {
      TrackQuiet(env, ms, groups);
    } else {
      TrackRecordsLast(env, ms, groups);
    }
  }

  /**
   * At most two measurements leave the table empty, and the bootstrap never
   * seeds the filtered state: it stays the zero vector and the covariance
   * the identity, as `CVFilter()` made them.
   */
  lemma TrackQuiet(env: Env, ms: seq<Measurement>, groups: seq<Group>)
    requires EnvOk(env) && FormMeasurementGroups(ms, DefaultMaxTimeDiff) == Ok(groups) && |ms| < 3
    ensures var r := FeedGroups(env, Start(), groups, |groups|);
      && r.associations == map[]
      && r.filter.sf == CVFilter.New().sf && r.filter.pf == CVFilter.New().pf
  {
    assert groups[..|groups|] == groups;
    FeedGroupsBootstrap(env, Start(), groups, |groups|);
  }

  /** From three measurements on, the last group leaves a record. */
  lemma TrackRecordsLast(env: Env, ms: seq<Measurement>, groups: seq<Group>)
    requires EnvOk(env) && FormMeasurementGroups(ms, DefaultMaxTimeDiff) == Ok(groups) && |ms| >= 3
    ensures TrackId(|groups|) in FeedGroups(env, Start(), groups, |groups|).associations
  {
    assert groups[..|groups|] == groups;
    var k := |groups| - 1;
    assert WellBatched(groups, DefaultMaxTimeDiff) && |groups[k]| > 0;
    FeedGroupsTrack(env, Start(), groups, |groups|, k);
  }

  /** Per group, the table `Track` returns holds the entry `TrackEntry` describes, from a fresh start. */
  lemma TrackRecords(env: Env, ms: seq<Measurement>, groups: seq<Group>, k: nat)
    requires EnvOk(env) && FormMeasurementGroups(ms, DefaultMaxTimeDiff) == Ok(groups) && k < |groups|
    ensures TrackEntry(env, Start(), groups, k, Track(env, ms).value)
  {
    FeedGroupsTrack(env, Start(), groups, |groups|, k);
  }

  /** The table only has entries `Track-1` .. `Track-n` for the `n` batches. */
  lemma TrackKeys(env: Env, ms: seq<Measurement>, groups: seq<Group>, t: TrackId)
    requires EnvOk(env) && FormMeasurementGroups(ms, DefaultMaxTimeDiff) == Ok(groups)
    ensures t in Track(env, ms).value ==> 1 <= t.n <= |groups|
  {
    if t.n < 1 || |groups| < t.n {
      FeedGroupsOthers(env, Start(), groups, |groups|, t);
    }
  }

  /**
   * One measurement after the bootstrap: initialise, predict to the
   * measurement's own time, build the N x 1 cost column over the whole
   * group, take `col_ind[0]` as the best match and update with it.
   */
  function TrackStep(env: Env, f: CVFilter.Filter, g: nat, group: Group, i: nat): (r: (CVFilter.Filter, Association))
    requires EnvOk(env) && CVFilter.Valid(f) && CVFilter.StageOf(f) == CVFilter.Ready && i < |group|
    ensures CVFilter.Valid(r.0) && CVFilter.StageOf(r.0) == CVFilter.Ready
    ensures r.0.measTime == group[i].time && r.0.prevTime == f.measTime
    ensures r.1 == Association(r.0.sf[..3], ReportId(1), Cart(env, group[0]))
    ensures r.0.sp[..3] == Extrapolate(f.sf, group[i].time - f.measTime)
    ensures Cart(env, group[0]) == r.0.sp[..3] ==> r.0.sf == r.0.sp
    ensures r.0 == Correct(env, PredictTo(f, Cart(env, group[i]), group[i].time), Cart(env, group[0]))
  {
    var f2 := PredictTo(f, Cart(env, group[i]), group[i].time);
    var best := BestMatch(env, f2.sp[..3], group);
    var z := Candidates(env, group)[best];
    var f3 := Correct(env, f2, z);
    assert f3.sp[..3] == f2.sp[..3] == Extrapolate(f.sf, group[i].time - f.measTime);
    (f3, Association(f3.sf[..3], ReportId(best + 1), z))
  }

  /**
   * The index `col_ind[0]` the solver returns for the N x 1 column of
   * distances from the predicted position to every measurement of the
   * group. It is always 0.
   */
  function BestMatch(env: Env, predicted: Vec, group: Group): (best: nat)
    requires EnvOk(env) && |predicted| == 3 && |group| > 0
    ensures best == 0
  {
    var cost := CostColumn(env, predicted, Candidates(env, group));
    BestMatchIsFirst(env, cost);
    env.assign(cost).1[0]
  }

  /** `update_step` with the chosen measurement, `inv(S)` taken from the environment. */
  function Correct(env: Env, f: CVFilter.Filter, z: Vec): (g: CVFilter.Filter)
    requires EnvOk(env) && CVFilter.Valid(f) && |z| == 3
    ensures CVFilter.Valid(g) && CVFilter.StageOf(g) == CVFilter.StageOf(f)
    ensures g.sp == f.sp && g.measTime == f.measTime && g.prevTime == f.prevTime
    ensures z == f.sp[..3] ==> g.sf == f.sp
    ensures var sInv := env.inv(CVFilter.InnovationCov(f));
      MatMul(CVFilter.InnovationCov(f), sInv, 3, 3, 3) == Identity(3) ==>
        forall k :: 0 <= k < 3 ==> z[k] - g.sf[k] == Dot(sInv[k], CVFilter.Innovation(f, z))
  {
    var sInv := env.inv(CVFilter.InnovationCov(f));
    if MatMul(CVFilter.InnovationCov(f), sInv, 3, 3, 3) == Identity(3) then
      CVFilter.UpdateResidual(f, z, sInv);
      CVFilter.Update(f, z, sInv)
    else
      CVFilter.Update(f, z, sInv)
  }

  /** The update writes only `Sf` and `Pf`. */
  lemma CorrectFrame(env: Env, f: CVFilter.Filter, z: Vec)
    requires EnvOk(env) && CVFilter.Valid(f) && |z| == 3
    ensures Correct(env, f, z).(sf := f.sf, pf := f.pf) == f
  {
  }

  /**
   * When `inv(S)` is the exact inverse of `S`, the position rows of the
   * updated covariance are `inv(S)` times the position rows of `Pp`.
   */
  lemma CorrectCovariance(env: Env, f: CVFilter.Filter, z: Vec)
    requires EnvOk(env) && CVFilter.Valid(f) && |z| == 3
    ensures var sInv := env.inv(CVFilter.InnovationCov(f));
      MatMul(CVFilter.InnovationCov(f), sInv, 3, 3, 3) == Identity(3) ==>
        forall k, j :: 0 <= k < 3 && 0 <= j < 6 ==>
          Correct(env, f, z).pf[k][j] == Dot(sInv[k], Col(f.pp, j)[..3])
  {
    var sInv := env.inv(CVFilter.InnovationCov(f));
    if MatMul(CVFilter.InnovationCov(f), sInv, 3, 3, 3) == Identity(3) {
      CVFilter.UpdateCovariance(f, z, sInv);
    }
  }

  /** `initialize_filter_state` on a bootstrapped filter followed by `predict_step` to the same time. */
  function PredictTo(f: CVFilter.Filter, p: Vec, t: real): (f2: CVFilter.Filter)
    requires CVFilter.Valid(f) && CVFilter.StageOf(f) == CVFilter.Ready && |p| == 3
    ensures CVFilter.Valid(f2) && CVFilter.StageOf(f2) == CVFilter.Ready
    ensures f2.measTime == t && f2.prevTime == f.measTime
    ensures f2.sp[..3] == Extrapolate(f.sf, t - f.measTime)
  {
    var f1 := CVFilter.Initialize(f, p[0], p[1], p[2], 0.0, 0.0, 0.0, t);
    PredictFromLastMeasurement(f, f1, t);
    CVFilter.Predict(f1, t)
  }

  /**
   * A prediction after the bootstrap's re-initialisation moves the
   * position from the previous measurement time, since the
   * re-initialisation set `prevTime` to it.
   */
  lemma PredictFromLastMeasurement(f: CVFilter.Filter, f1: CVFilter.Filter, t: real)
    requires CVFilter.Valid(f) && CVFilter.Valid(f1)
    requires f1.sf == f.sf && f1.prevTime == f.measTime
    ensures CVFilter.Predict(f1, t).sp[..3] == Extrapolate(f.sf, t - f.measTime)
  {
    var sp := CVFilter.Predict(f1, t).sp;
    assert forall k :: 0 <= k < 3 ==> sp[..3][k] == Extrapolate(f.sf, t - f.measTime)[k];
  }

  /** The position of a constant-velocity state after `dt`. */
  function Extrapolate(s: Vec, dt: real): (p: Vec)
    requires |s| == 6
  {
    seq(3, k requires 0 <= k < 3 => s[k] + dt * s[k + 3])
  }

  /** A second write to the same key replaces the first. */
  lemma Overwrite<K, V>(m: map<K, V>, k: K, a: V, b: V)
    ensures m[k := a][k := b] == m[k := b]
  {
  }
}
